=== FILE: README.md ===
# LibOPF node collection (`Subgraph`) in Dafny

This project models the data layer of the LibOPF Optimum-Path Forest library:
the node collection `Subgraph` and its node records `SNode`, as implemented in
`src/util/subgraph.c`. A collection holds `nnodes` nodes. Each node has a
feature vector, a true label and an assigned label, forest links (`pred`,
`root`, `pathval`), a density, some auxiliary scalars and an adjacency set. The
collection also carries the counts `nlabels` and `nfeats`, an ordering list,
and the scalars `bestk`, `df`, `mindens`, `maxdens` and `K`.

The model covers:

- creation of a collection (`CreateSubgraph`);
- the binary file format written by `WriteSubgraph` and read by
  `ReadSubgraph`, as a pure encoder and decoder over 32-bit words;
- deep copy of a node (`CopySNode`) and of a collection (`CopySubgraph`);
- exchange of two node records (`SwapSNode`), either two slots of one node
  array or one slot in each of two node arrays;
- extraction of the prototype collection (`CreateGraphFromPrototypes`). A
  prototype is a node whose `pred` is `NIL`.

Files and modules:

| file | module | contents |
|---|---|---|
| `wrappers.dfy` | `Wrappers` | `Option` (a pointer that may be NULL) and `Result` (an operation that may stop with `Error`) |
| `words.dfy` | `Words` | `Word` (32 stream bits), `int32` (a C `int`), two's-complement conversion between them |
| `subgraph.dfy` | `Subgraphs` | `Node`, `Subgraph`, `NIL`, creation, node and collection copy, swap |
| `prototypes.dfy` | `Prototypes` | prototype count, prototype indices, the order-preserving filter, extraction |
| `codec.dfy` | `Codec` | `Encode` / `Decode`, read errors, both round trips, rejection of truncated streams |

Modelling choices:

- All values are immutable. A copy therefore can never share storage with its
  source. The deep-copy isolation the C code gets from fresh allocations
  holds by construction here; it is not a separate lemma.
- Float fields (`pathval`, `dens`, `radius`, `df`, `mindens`, `maxdens`, `K`
  and the features) are opaque 32-bit words. They are only copied and
  serialised, never computed with. A float 0.0 is the all-zero word, which is
  what `calloc` leaves behind.
- Every integer field, and every adjacency entry, is a 32-bit signed `int32`. The header `subgraph.h` is
  not part of this model. The narrower C type of `status` and `relevant`
  does not matter, because they are only copied.
- `nnodes` is not a separate field. It is the length of the node array.
  `Subgraph.Valid` requires that this length fits a C `int` and that the
  ordering list has the same length.
- A feature array is `Option<seq<Word>>`, where `None` is a NULL pointer. The
  adjacency set is a `seq<int32>` of node indices, where a NULL set is the empty
  list. `CloneSet` is not part of this model; its result is taken to be an
  equal, independent value.
- `NIL` is `-1`, the value LibOPF's common header gives it. That header is not
  part of this model.
- The C field `label` is called `assignedLabel`, because `label` is a reserved
  word in Dafny.
- A `Result` failure stands for the C `Error` call, which aborts the process.
  `ReadError` names each distinct reason.
- Negative header counts in a stream:
  - A negative `nnodes` makes decoding fail with `CannotAllocateNodes`. This
    follows the code: `CreateSubgraph` passes the count to `calloc`, which
    cannot allocate it, so `Error` is called.
  - A negative `nfeats` makes decoding fail with `NegativeFeatureCount`, but
    only when `nnodes > 0`. The code allocates a feature array once per node,
    through `AllocFloatArray`, which is not part of this model; failing there is
    a modelling choice. With zero nodes the node loop never runs, so the code
    returns an empty collection carrying the negative `nfeats`, and so does the
    model.
- Every loop over features visits the first `nfeats` entries of a node's
  array (`FeatPrefix`), and none when `nfeats` is not positive. So writing, copying and extracting need only those
  entries to exist (`FeatsReadable`). A populated collection
  (`WellFormed`) has exactly `nfeats` features per node. For such a
  collection, copying gives back the collection itself.
- Where the comment and the code disagree, the model follows the code. The
  comment above `CopySubgraph` (`src/util/subgraph.c:184`) says arcs are not
  copied. `CopySNode`, however, clones the adjacency set
  (`src/util/subgraph.c:231`). The model copies adjacency as a value.
- Only a NULL argument makes `CopySubgraph` return NULL. A collection of zero
  nodes is copied like any other, whatever its `nfeats`.
- `WriteSubgraph` is modelled with its NULL guard: a NULL collection produces
  no stream at all (the code does not even open the file). `Encode` is the
  stream written for a non-NULL collection.

## Model

| member | source | states |
|---|---|---|
| `Subgraphs.CreateSubgraph` | src/util/subgraph.c:30-54 | yields exactly `nnodes` nodes, each with no feature array, `relevant = 0` and `dens = 0` (the rest zeroed as by calloc), a zeroed ordering list of the same length, `bestk`, `nlabels` and `nfeats` zero, and `df`, `mindens`, `maxdens` and `K` the float zero |
| `Subgraphs.CopySNode` | src/util/subgraph.c:215-232 | the copy agrees with the source on `pathval`, `dens`, `radius`, `label`, `root`, `pred`, `truelabel`, `position`, `status`, `relevant`, `nplatadj` and the adjacency contents, and holds a fresh array of the source's first `nfeats` features; a node with exactly `nfeats` features is copied to an equal node |
| `Subgraphs.CopySubgraph` | src/util/subgraph.c:185-212 | NULL is copied to NULL; otherwise the clone has the same node count, `bestk`, `df`, `nlabels`, `nfeats`, `mindens`, `maxdens`, `K` and ordering list, and node `i` is the field-by-field copy of source node `i`; a populated collection is copied to an equal collection |
| `Subgraphs.SwapSNode` | src/util/subgraph.c:235-242 | slot `a` then holds `b`'s old record, slot `b` holds `a`'s old record, and every other slot is unchanged |
| `Subgraphs.SwapSNodeInvolution` | src/util/subgraph.c:235-242 | swapping the same two slots twice restores the original node array |
| `Subgraphs.SwapSNodePermutes` | src/util/subgraph.c:235-242 | a swap only reorders: the node array holds the same multiset of records |
| `Subgraphs.SwapSNodePreservesWellFormed` | src/util/subgraph.c:235-242 | swapping two nodes of a populated collection leaves it populated |
| `Subgraphs.SwapSNodes` | src/util/subgraph.c:235-242 | when the two records belong to two different node arrays, `x[a]` then holds `y[b]`'s old record, `y[b]` holds `x[a]`'s old record, and every other slot of both arrays is unchanged |
| `Subgraphs.SwapSNodesInvolution` | src/util/subgraph.c:235-242 | exchanging the same two slots of two arrays twice restores both arrays |
| `Subgraphs.SwapSNodesConserves` | src/util/subgraph.c:235-242 | an exchange between two arrays moves records only: the two arrays together hold the same multiset of records |
| `Subgraphs.SwapSNodesWellFormed` | src/util/subgraph.c:235-242 | exchanging a node between two populated collections leaves both populated if and only if they have the same `nfeats` |
| `Prototypes.CountPrototypesLoop` | src/util/subgraph.c:107-112 | the counting loop yields the number of source nodes with `pred == NIL` |
| `Prototypes.PrototypeIndices` | src/util/subgraph.c:119-120 | the positions the filling loop visits with `pred == NIL`: strictly increasing, each a prototype, every prototype among them, as many as the count |
| `Prototypes.Extracted` | src/util/subgraph.c:122-133 | an extracted node holds the source's first `nfeats` features and its `truelabel`, `label`, `pred` and `position`; `root` and every other field keep their creation defaults |
| `Prototypes.PrototypeNodesInOrder` | src/util/subgraph.c:118-137 | node `k` of the filtered sequence is the extracted form of the `k`-th source node with `pred == NIL`, in source order |
| `Prototypes.FillPrototypes` | src/util/subgraph.c:118-137 | slot `k` gets the `k`-th prototype's first `nfeats` features, `truelabel`, `label`, `pred` and `position`, and keeps every other field it had; on creation-default slots the result is exactly the order-preserving filter of extracted prototypes |
| `Prototypes.CreateGraphFromPrototypes` | src/util/subgraph.c:104-140 | the new collection has one node per source node with `pred == NIL`, `nlabels = 1`, the source's `nfeats`, creation defaults elsewhere; node `k` is the extracted `k`-th prototype, so every extracted `pred` is NIL |
| `Prototypes.AllPrototypesCount` | src/util/subgraph.c:130-133 | since `pred` is copied, every node of an extracted collection is a prototype, and extracting again keeps every node in place |
| `Words.WordToIntOfIntToWord` | src/util/subgraph.c:157-163 | an `int` written as a word reads back as the same `int` |
| `Words.IntToWordOfWordToInt` | src/util/subgraph.c:86-88 | an `int` read from a word is written back as the same word |
| `Codec.EncodeNode` | src/util/subgraph.c:94-97 | a node takes exactly `2 + nfeats` words |
| `Codec.EncodeNodes` | src/util/subgraph.c:92-98 | the node bodies take exactly `nnodes * (2 + nfeats)` words |
| `Codec.Encode` | src/util/subgraph.c:83-98 | the stream is exactly `3 + nnodes * (2 + nfeats)` words long and starts with `nnodes`, `nlabels`, `nfeats` |
| `Codec.WriteSubgraph` | src/util/subgraph.c:78-101 | a NULL collection writes nothing; any other is written as `3 + nnodes * (2 + nfeats)` words, which read back as its persisted part |
| `Codec.EncodeLayout` | src/util/subgraph.c:92-98 | node `k` occupies words `3 + k*W` to `3 + k*W + W` (with `W = 2 + nfeats`): its position, then its true label, then its first `nfeats` features in order |
| `Codec.DecodeLayout` | src/util/subgraph.c:165-177 | node `k` of a successful read takes its position from word `3 + k*W`, its true label from the next word and its features from the `nfeats` words after that; every other field is its creation default |
| `Codec.DecodeNode` | src/util/subgraph.c:166-177 | a node reads successfully exactly when `2 + nfeats` words remain; otherwise the error names this node and the read that failed: the position when no word remains, the true label when one word remains, and otherwise the feature whose index is the number of feature words present |
| `Codec.DecodeNodes` | src/util/subgraph.c:165-177 | the node bodies read successfully exactly when `nnodes * (2 + nfeats)` words remain, giving `nnodes` nodes of `nfeats` features each; otherwise the error names one of the nodes |
| `Codec.Decode` | src/util/subgraph.c:143-182 | a successful read has the header's counts, populated nodes and consumed `3 + nnodes * (2 + nfeats)` words; with a non-negative node count, and a non-negative feature count whenever there is a node, it succeeds exactly when that many words are present; a stream shorter than the header fails with a header error, and every other failure names a node |
| `Codec.DecodeEncode` | src/util/subgraph.c:157-177 | reading what was written, whatever follows it, gives back the node count, `nlabels`, `nfeats` and each node's position, true label and first `nfeats` features, with every other field at its creation default |
| `Codec.DecodeEncodeWellFormed` | src/util/subgraph.c:157-177 | for a populated collection, the read-back collection has the same counts and, node by node in order, the same position, true label and whole feature vector; every other field, `bestk` and the ordering list are at their creation defaults |
| `Codec.EncodeDecode` | src/util/subgraph.c:86-98 | writing what was read reproduces, word for word, the part of the stream that was read |
| `Codec.DecodeRejectsTruncated` | src/util/subgraph.c:157-176 | for every writable collection, any stream that ends before the last written word is rejected |

## Left out

- `DestroySubgraph` (`src/util/subgraph.c:57-75`): memory release has no counterpart for immutable values. Destroying a NULL collection is a no-op there, and nothing is needed here.
- Allocation failure: `calloc` and `AllocFloatArray` never fail in the model, except for the negative counts noted above. `AllocFloatArray` is not part of this model.
- File handling: `fopen` and `fclose`, the unchecked `fopen` result in `WriteSubgraph`, and the open failure in `ReadSubgraph` are left out. The stream is a word sequence that is handed in or returned.
- The diagnostic `fprintf` to stderr in `WriteSubgraph` (`src/util/subgraph.c:89`) is left out, because it is output only.
- Host byte order and the sizes of `int` and `float`: a stream element is one abstract 32-bit word.
- Float semantics: float fields are opaque words, and nothing computes with them.
- `CloneSet` and the `Set` type are not part of this model. The adjacency set is a list value, and cloning is modelled as an equal copy.
- `Subgraphs.CopySubgraph`: requires `nfeats >= 0` when the collection has at least one node, because the result of `AllocFloatArray` and of `memcpy` for a negative count is not visible. A collection without nodes is copied whatever its `nfeats`.
- `Prototypes.CreateGraphFromPrototypes`: requires `nfeats >= 0` when there is at least one prototype, for the same reason. It also requires that every prototype has its first `nfeats` features, which the C code reads without checking.
- `Codec.DecodeEncode`: requires `nfeats >= 0` when the collection has a node, because the model's read rejects a negative feature count in that case (see above).
- `Subgraphs.CreateSubgraph`: takes a non-negative count. A negative count reaches it only through `ReadSubgraph`, and `Codec.Decode` models that case as a failure.

=== FILE: codec.dfy ===
/** The binary collection format written by WriteSubgraph and read by
    ReadSubgraph, as a pure encoder and decoder over a sequence of 32-bit
    words. Layout: `nnodes`, `nlabels`, `nfeats`, then for each node in storage
    order its `position`, its `truelabel` and its `nfeats` feature words. No
    other field is stored. */
module Codec {
  import opened Wrappers
  import opened Words
  import opened Subgraphs

  /** The ways a read can stop. Each one aborts ReadSubgraph through Error. */
  datatype ReadError =
    | MissingNodeCount                        // the stream ends before `nnodes`
    | CannotAllocateNodes                     // `nnodes` is negative, so CreateSubgraph cannot allocate
    | MissingLabelCount                       // the stream ends before `nlabels`
    | MissingFeatureCount                     // the stream ends before `nfeats`
    | NegativeFeatureCount                    // `nfeats` is negative and a node needs a feature array
    | MissingPosition(node: nat)              // the stream ends before a node's position
    | MissingTrueLabel(node: nat)             // the stream ends before a node's true label
    | MissingFeature(node: nat, feature: nat) // the stream ends before a node's feature

  /** A failure while reading the header (the three counts). */
  predicate IsHeaderError(e: ReadError) {
    e.MissingNodeCount? || e.CannotAllocateNodes? || e.MissingLabelCount?
    || e.MissingFeatureCount? || e.NegativeFeatureCount?
  }

  /** A failure while reading the body of node `node`, one of the first `nnodes`. */
  predicate IsNodeError(e: ReadError, nnodes: int) {
    && (e.MissingPosition? || e.MissingTrueLabel? || e.MissingFeature?)
    && e.node < nnodes
  }

  /** Words a node takes on the stream: position, true label and the features. */
  function NodeWords(nfeats: int): nat {
    2 + FeatureWords(nfeats)
  }

  /** Words a collection of `nnodes` nodes with `nfeats` features takes. */
  function EncodedSize(nnodes: nat, nfeats: int): nat {
    3 + nnodes * NodeWords(nfeats)
  }

  /** What WriteSubgraph needs: `nnodes` fits an int and the first `nfeats`
      features of every node can be read. */
  predicate Encodable(g: Subgraph) {
    && |g.node| <= MAX_INT32
    && forall i :: 0 <= i < |g.node| ==> FeatsReadable(g.node[i], g.nfeats)
  }

  /** What a stream must describe for ReadSubgraph to take it back: a
      writable collection whose feature count is non-negative whenever a node
      needs a feature array. */
  predicate Readable(g: Subgraph) {
    && Encodable(g)
    && (|g.node| > 0 ==> g.nfeats >= 0)
  }

  // ---------------------------------------------------------------- encoding

  function EncodeNode(n: Node, nfeats: int32): (ws: seq<Word>)
    requires FeatsReadable(n, nfeats)
    ensures |ws| == NodeWords(nfeats)
  {
    [IntToWord(n.position), IntToWord(n.truelabel)] + FeatPrefix(n, nfeats)
  }

  function EncodeNodes(nodes: seq<Node>, nfeats: int32): (ws: seq<Word>)
    requires forall i :: 0 <= i < |nodes| ==> FeatsReadable(nodes[i], nfeats)
    ensures |ws| == |nodes| * NodeWords(nfeats)
  {
    if |nodes| == 0 then []
    else EncodeNode(nodes[0], nfeats) + EncodeNodes(nodes[1..], nfeats)
  }

  /** WriteSubgraph: the header, then every node in storage order. */
  function Encode(g: Subgraph): (ws: seq<Word>)
    requires Encodable(g)
    ensures |ws| == EncodedSize(|g.node|, g.nfeats)
    ensures ws[0] == IntToWord(|g.node|) && ws[1] == IntToWord(g.nlabels) && ws[2] == IntToWord(g.nfeats)
  {
    [IntToWord(|g.node|), IntToWord(g.nlabels), IntToWord(g.nfeats)] + EncodeNodes(g.node, g.nfeats)
  }

  /** WriteSubgraph including its NULL guard: a NULL collection writes nothing
      (no file is even opened); any other is written in full. */
  function WriteSubgraph(g: Option<Subgraph>): (out: Option<seq<Word>>)
    requires g.Some? ==> Encodable(g.value)
    ensures g.None? <==> out.None?
    ensures out.Some? ==> |out.value| == EncodedSize(g.value.NNodes(), g.value.nfeats)
    ensures out.Some? && Readable(g.value) ==> Decode(out.value) == Success(Persisted(g.value))
  {
    match g
    case None => None
    case Some(s) =>
      var ws := Encode(s);
      if Readable(s) then
        DecodeEncode(s, []);
        assert ws + [] == ws;
        Some(ws)
      else
        Some(ws)
  }

  // ---------------------------------------------------------------- layout

  /** Writing two runs of nodes one after the other writes their bodies one after the other. */
  lemma {:induction false} EncodeNodesAppend(a: seq<Node>, b: seq<Node>, nfeats: int32)
    requires forall i :: 0 <= i < |a| ==> FeatsReadable(a[i], nfeats)
    requires forall i :: 0 <= i < |b| ==> FeatsReadable(b[i], nfeats)
    ensures EncodeNodes(a + b, nfeats) == EncodeNodes(a, nfeats) + EncodeNodes(b, nfeats)
    decreases |a|
  {
    if |a| == 0 {
      assert a + b == b;
    } else {
      assert (a + b)[1..] == a[1..] + b;
      EncodeNodesAppend(a[1..], b, nfeats);
    }
  }

  /** The node bodies split around node `k`: those before it, its own words, those after it. */
  lemma EncodeNodesSplit(nodes: seq<Node>, nfeats: int32, k: nat)
    requires forall i :: 0 <= i < |nodes| ==> FeatsReadable(nodes[i], nfeats)
    requires k < |nodes|
    ensures EncodeNodes(nodes, nfeats)
         == EncodeNodes(nodes[..k], nfeats) + (EncodeNode(nodes[k], nfeats) + EncodeNodes(nodes[k + 1..], nfeats))
  {
    var before, here, after := nodes[..k], [nodes[k]], nodes[k + 1..];
    assert nodes == before + (here + after);
    EncodeNodesAppend(before, here + after, nfeats);
    EncodeNodesAppend(here, after, nfeats);
    assert EncodeNodes(here, nfeats) == EncodeNode(nodes[k], nfeats) + EncodeNodes([], nfeats);
  }

  /** Node `k`'s words sit at offset `k * NodeWords(nfeats)` of the node bodies. */
  lemma EncodeNodesAt(nodes: seq<Node>, nfeats: int32, k: nat)
    requires forall i :: 0 <= i < |nodes| ==> FeatsReadable(nodes[i], nfeats)
    requires k < |nodes|
    ensures k * NodeWords(nfeats) + NodeWords(nfeats) <= |EncodeNodes(nodes, nfeats)|
    ensures EncodeNodes(nodes, nfeats)[k * NodeWords(nfeats) .. k * NodeWords(nfeats) + NodeWords(nfeats)]
         == EncodeNode(nodes[k], nfeats)
  {
    EncodeNodesSplit(nodes, nfeats, k);
    var prefix := EncodeNodes(nodes[..k], nfeats);
    assert |prefix| == k * NodeWords(nfeats);
    SliceOfConcat(prefix, EncodeNode(nodes[k], nfeats), EncodeNodes(nodes[k + 1..], nfeats));
  }

  /** A prefix of `a + b` elements is the first `a` followed by the next `b`. */
  lemma PrefixSplit<T>(s: seq<T>, a: nat, b: nat)
    requires a + b <= |s|
    ensures s[..a + b] == s[..a] + s[a..][..b]
  {
    assert forall i :: 0 <= i < a + b ==> s[..a + b][i] == (s[..a] + s[a..][..b])[i];
  }

  /** The middle run of a concatenation, sliced back out. */
  lemma SliceOfConcat<T>(a: seq<T>, b: seq<T>, c: seq<T>)
    ensures (a + (b + c))[|a| .. |a| + |b|] == b
  {
    var s := (a + (b + c))[|a| .. |a| + |b|];
    assert forall i :: 0 <= i < |b| ==> s[i] == b[i];
  }

  /** Where WriteSubgraph puts node `k`: its position at word `3 + k * W`, its
      true label right after, then its first `nfeats` features in order, where
      `W` is the number of words per node. */
  lemma EncodeLayout(g: Subgraph, k: nat)
    requires Encodable(g) && k < |g.node|
    ensures 3 + k * NodeWords(g.nfeats) + NodeWords(g.nfeats) <= |Encode(g)|
    ensures Encode(g)[3 + k * NodeWords(g.nfeats) .. 3 + k * NodeWords(g.nfeats) + NodeWords(g.nfeats)]
         == [IntToWord(g.node[k].position), IntToWord(g.node[k].truelabel)] + FeatPrefix(g.node[k], g.nfeats)
  {
    var w := NodeWords(g.nfeats);
    var off := k * w;
    var body := EncodeNodes(g.node, g.nfeats);
    var ws := Encode(g);
    EncodeNodesAt(g.node, g.nfeats, k);
    assert body[off .. off + w] == EncodeNode(g.node[k], g.nfeats);
    assert ws[3..] == body;
    assert ws[3 + off .. 3 + off + w] == body[off .. off + w];
  }

  // ---------------------------------------------------------------- decoding

  /** Reads node `i` from the front of `ws` into a node fresh from CreateSubgraph. */
  function DecodeNode(ws: seq<Word>, i: nat, nfeats: nat): (r: Result<Node, ReadError>)
    ensures r.Success? <==> |ws| >= NodeWords(nfeats)
    ensures r.Success? ==> HasFeatures(r.value, nfeats)
    ensures r.Failure? ==> IsNodeError(r.error, i + 1) && r.error.node == i
    ensures r.Failure? && r.error.MissingFeature? ==> r.error.feature < nfeats
    ensures r.Failure? ==> (r.error.MissingPosition? <==> |ws| == 0)
    ensures r.Failure? ==> (r.error.MissingTrueLabel? <==> |ws| == 1)
    ensures r.Failure? && r.error.MissingFeature? ==> r.error.feature == |ws| - 2
  {
    if |ws| < 1 then Failure(MissingPosition(i))
    else if |ws| < 2 then Failure(MissingTrueLabel(i))
    else if |ws| < 2 + nfeats then Failure(MissingFeature(i, |ws| - 2))
    else Success(DefaultNode.(position := WordToInt(ws[0]),
                              truelabel := WordToInt(ws[1]),
                              feat := Some(ws[2..2 + nfeats])))
  }

  /** Peeling one node off `m` nodes of `w` words each. */
  lemma MulStep(m: nat, w: nat)
    requires m >= 1
    ensures m * w == w + (m - 1) * w
    ensures m * w >= w
  {
  }

  /** Reads nodes `i` up to `nnodes` from the front of `ws`. */
  function DecodeNodes(ws: seq<Word>, i: nat, nnodes: nat, nfeats: nat): (r: Result<seq<Node>, ReadError>)
    requires i <= nnodes
    ensures r.Success? <==> |ws| >= (nnodes - i) * NodeWords(nfeats)
    ensures r.Success? ==> |r.value| == nnodes - i
    ensures r.Success? ==> forall k :: 0 <= k < |r.value| ==> HasFeatures(r.value[k], nfeats)
    ensures r.Failure? ==> IsNodeError(r.error, nnodes) && r.error.node >= i
    decreases nnodes - i
  {
    if i == nnodes then Success([])
    else
      MulStep(nnodes - i, NodeWords(nfeats));
      match DecodeNode(ws, i, nfeats)
      case Failure(e) => Failure(e)
      case Success(n) =>
        match DecodeNodes(ws[NodeWords(nfeats)..], i + 1, nnodes, nfeats)
        case Failure(e) => Failure(e)
        case Success(rest) => Success([n] + rest)
  }

  /** ReadSubgraph: the header, a collection from CreateSubgraph, then every node.
      Words after the last node are not read. */
  function Decode(ws: seq<Word>): (r: Result<Subgraph, ReadError>)
    ensures r.Success? ==>
      && |ws| >= 3
      && r.value.NNodes() == WordToInt(ws[0])
      && r.value.nlabels == WordToInt(ws[1])
      && r.value.nfeats == WordToInt(ws[2])
      && WellFormed(r.value)
      && |ws| >= EncodedSize(r.value.NNodes(), r.value.nfeats)
    ensures |ws| >= 3 && WordToInt(ws[0]) >= 0 && (WordToInt(ws[0]) > 0 ==> WordToInt(ws[2]) >= 0) ==>
      (r.Success? <==> |ws| >= EncodedSize(WordToInt(ws[0]), WordToInt(ws[2])))
    ensures |ws| < 3 ==> r.Failure? && IsHeaderError(r.error)
    ensures r.Failure? && IsHeaderError(r.error) ==>
      |ws| < 3 || WordToInt(ws[0]) < 0 || (WordToInt(ws[0]) > 0 && WordToInt(ws[2]) < 0)
    ensures r.Failure? && !IsHeaderError(r.error) ==> IsNodeError(r.error, WordToInt(ws[0]))
  {
    if |ws| < 1 then Failure(MissingNodeCount)
    else
      var nnodes := WordToInt(ws[0]);
      if nnodes < 0 then Failure(CannotAllocateNodes)
      else if |ws| < 2 then Failure(MissingLabelCount)
      else if |ws| < 3 then Failure(MissingFeatureCount)
      else
        var nfeats := WordToInt(ws[2]);
        if nnodes > 0 && nfeats < 0 then Failure(NegativeFeatureCount)
        else
          match DecodeNodes(ws[3..], 0, nnodes, FeatureWords(nfeats))
          case Failure(e) => Failure(e)
          case Success(nodes) =>
            Success(CreateSubgraph(nnodes).(node := nodes, nlabels := WordToInt(ws[1]), nfeats := nfeats))
  }

  /** Node `k` of a successful read of the node bodies is read from offset `k * NodeWords(nfeats)`. */
  lemma {:induction false} DecodeNodesAt(ws: seq<Word>, i: nat, nnodes: nat, nfeats: nat, k: nat)
    requires i <= nnodes && k < nnodes - i
    requires DecodeNodes(ws, i, nnodes, nfeats).Success?
    ensures k * NodeWords(nfeats) + NodeWords(nfeats) <= |ws|
    ensures DecodeNode(ws[k * NodeWords(nfeats)..], i + k, nfeats).Success?
    ensures DecodeNodes(ws, i, nnodes, nfeats).value[k] == DecodeNode(ws[k * NodeWords(nfeats)..], i + k, nfeats).value
    decreases k
  {
    var w := NodeWords(nfeats);
    MulStep(nnodes - i, w);
    if k > 0 {
      DecodeNodesAt(ws[w..], i + 1, nnodes, nfeats, k - 1);
      MulStep(k, w);
      assert ws[w..][(k - 1) * w..] == ws[k * w..];
    } else {
      assert ws[0..] == ws;
    }
  }

  /** A successful read with at least one node has a non-negative feature
      count from word 2, and its nodes are the node bodies read after the header. */
  lemma DecodeHeader(ws: seq<Word>)
    requires Decode(ws).Success? && Decode(ws).value.NNodes() > 0
    ensures |ws| >= 3
    ensures Decode(ws).value.nfeats == WordToInt(ws[2]) >= 0
    ensures var g := Decode(ws).value;
      DecodeNodes(ws[3..], 0, g.NNodes(), g.nfeats).Success? &&
      g.node == DecodeNodes(ws[3..], 0, g.NNodes(), g.nfeats).value
  {
  }

  /** A successfully read node takes its position from the first word, its
      true label from the second and its features from the rest of its span. */
  lemma DecodeNodeLayout(ws: seq<Word>, i: nat, nfeats: nat)
    requires DecodeNode(ws, i, nfeats).Success?
    ensures DecodeNode(ws, i, nfeats).value
      == DefaultNode.(position := WordToInt(ws[0]),
                      truelabel := WordToInt(ws[1]),
                      feat := Some(ws[2 .. NodeWords(nfeats)]))
  {
  }

  /** Node `n` is what the reader makes of the words of `ws` from offset `at`:
      the position from word `at`, the true label from the next word and the
      `nfeats` features after that; every other field is as CreateSubgraph left it. */
  predicate ReadFrom(ws: seq<Word>, at: nat, nfeats: int, n: Node) {
    && at + NodeWords(nfeats) <= |ws|
    && n == DefaultNode.(position := WordToInt(ws[at]),
                         truelabel := WordToInt(ws[at + 1]),
                         feat := Some(ws[at + 2 .. at + NodeWords(nfeats)]))
  }

  /** Node `k` of a successful read of the node bodies is read from offset `k * NodeWords(nfeats)`. */
  lemma NodesLayout(body: seq<Word>, nnodes: nat, nfeats: nat, k: nat)
    requires DecodeNodes(body, 0, nnodes, nfeats).Success? && k < nnodes
    ensures ReadFrom(body, k * NodeWords(nfeats), nfeats, DecodeNodes(body, 0, nnodes, nfeats).value[k])
  {
    DecodeNodesAt(body, 0, nnodes, nfeats, k);
    var off := k * NodeWords(nfeats);
    var sub := body[off..];
    DecodeNodeLayout(sub, k, nfeats);
    assert sub[0] == body[off] && sub[1] == body[off + 1];
    assert sub[2 .. NodeWords(nfeats)] == body[off + 2 .. off + NodeWords(nfeats)];
  }

  /** A node read from offset `at` of a suffix is read from offset `d + at` of the whole stream. */
  lemma ReadFromShift(ws: seq<Word>, d: nat, at: nat, nfeats: int, n: Node)
    requires d <= |ws| && ReadFrom(ws[d..], at, nfeats, n)
    ensures ReadFrom(ws, d + at, nfeats, n)
  {
    var sub := ws[d..];
    assert sub[at] == ws[d + at] && sub[at + 1] == ws[d + at + 1];
    assert sub[at + 2 .. at + NodeWords(nfeats)] == ws[d + at + 2 .. d + at + NodeWords(nfeats)];
  }

  /** Where ReadSubgraph takes node `k` from: words `3 + k * W` onward, with
      `W = NodeWords(nfeats)`. */
  lemma DecodeLayout(ws: seq<Word>, g: Subgraph, k: nat)
    requires Decode(ws) == Success(g) && k < g.NNodes()
    ensures ReadFrom(ws, 3 + k * NodeWords(g.nfeats), g.nfeats, g.node[k])
  {
    DecodeHeader(ws);
    NodesLayout(ws[3..], g.NNodes(), FeatureWords(g.nfeats), k);
    ReadFromShift(ws, 3, k * NodeWords(g.nfeats), g.nfeats, g.node[k]);
  }

  // ---------------------------------------------------------------- round trips

  /** What a stored node reads back as: its position, true label and first
      `nfeats` features, on a node otherwise as CreateSubgraph left it. */
  function Stored(n: Node, nfeats: int32): (s: Node)
    requires nfeats >= 0 && FeatsReadable(n, nfeats)
  {
    DefaultNode.(position := n.position, truelabel := n.truelabel, feat := Some(FeatPrefix(n, nfeats)))
  }

  /** The stored form of every node, in order. */
  function StoredNodes(nodes: seq<Node>, nfeats: int32): (s: seq<Node>)
    requires |nodes| > 0 ==> nfeats >= 0
    requires forall k :: 0 <= k < |nodes| ==> FeatsReadable(nodes[k], nfeats)
    ensures |s| == |nodes|
    ensures forall k :: 0 <= k < |nodes| ==> s[k] == Stored(nodes[k], nfeats)
  {
    if |nodes| == 0 then [] else [Stored(nodes[0], nfeats)] + StoredNodes(nodes[1..], nfeats)
  }

  /** What a stored collection reads back as: its size, label count, feature
      count and stored nodes, with every other field as CreateSubgraph left it. */
  function Persisted(g: Subgraph): (p: Subgraph)
    requires Readable(g)
  {
    CreateSubgraph(|g.node|).(
      node := StoredNodes(g.node, g.nfeats),
      nlabels := g.nlabels,
      nfeats := g.nfeats)
  }

  lemma {:induction false} DecodeEncodeNodes(nodes: seq<Node>, nfeats: int32, rest: seq<Word>, i: nat, nnodes: nat)
    requires nfeats >= 0
    requires forall k :: 0 <= k < |nodes| ==> FeatsReadable(nodes[k], nfeats)
    requires i + |nodes| == nnodes
    ensures DecodeNodes(EncodeNodes(nodes, nfeats) + rest, i, nnodes, nfeats)
         == Success(StoredNodes(nodes, nfeats))
    decreases |nodes|
  {
    var ws := EncodeNodes(nodes, nfeats) + rest;
    if |nodes| > 0 {
      var n := nodes[0];
      var head := EncodeNode(n, nfeats);
      assert ws == head + (EncodeNodes(nodes[1..], nfeats) + rest);
      WordToIntOfIntToWord(n.position);
      WordToIntOfIntToWord(n.truelabel);
      assert ws[2..2 + nfeats] == FeatPrefix(n, nfeats);
      assert DecodeNode(ws, i, nfeats) == Success(Stored(n, nfeats));
      assert ws[NodeWords(nfeats)..] == EncodeNodes(nodes[1..], nfeats) + rest;
      DecodeEncodeNodes(nodes[1..], nfeats, rest, i + 1, nnodes);
    }
  }

  /** Reading what WriteSubgraph wrote, whatever follows it on the stream, gives
      back the persisted part of the collection. */
  lemma DecodeEncode(g: Subgraph, rest: seq<Word>)
    requires Readable(g)
    ensures Decode(Encode(g) + rest) == Success(Persisted(g))
  {
    var ws := Encode(g) + rest;
    WordToIntOfIntToWord(|g.node|);
    WordToIntOfIntToWord(g.nlabels);
    WordToIntOfIntToWord(g.nfeats);
    assert ws[3..] == EncodeNodes(g.node, g.nfeats) + rest;
    if |g.node| > 0 {
      DecodeEncodeNodes(g.node, g.nfeats, rest, 0, |g.node|);
    }
  }

  /** For a populated collection the round trip restores, node by node and in
      order, the same position, true label and whole feature vector, along with
      the node, label and feature counts; every other field comes back as
      CreateSubgraph sets it. */
  lemma DecodeEncodeWellFormed(g: Subgraph)
    requires WellFormed(g)
    ensures Decode(Encode(g)).Success?
    ensures var h := Decode(Encode(g)).value;
      && h.NNodes() == g.NNodes() && h.nlabels == g.nlabels && h.nfeats == g.nfeats
      && (forall i :: 0 <= i < |g.node| ==>
            && h.node[i].position == g.node[i].position
            && h.node[i].truelabel == g.node[i].truelabel
            && h.node[i].feat == g.node[i].feat
            && h.node[i].(position := 0, truelabel := 0, feat := None) == DefaultNode)
      && h.bestk == 0 && h.ordered == CreateSubgraph(|g.node|).ordered
  {
    if |g.node| > 0 {
      assert HasFeatures(g.node[0], g.nfeats);
    }
    DecodeEncode(g, []);
    assert Encode(g) + [] == Encode(g);
  }

  lemma {:induction false} EncodeDecodeNodes(ws: seq<Word>, i: nat, nnodes: nat, nfeats: nat)
    requires i <= nnodes && nfeats <= MAX_INT32
    requires DecodeNodes(ws, i, nnodes, nfeats).Success?
    ensures EncodeNodes(DecodeNodes(ws, i, nnodes, nfeats).value, nfeats) == ws[..(nnodes - i) * NodeWords(nfeats)]
    decreases nnodes - i
  {
    var nodes := DecodeNodes(ws, i, nnodes, nfeats).value;
    if i < nnodes {
      var w := NodeWords(nfeats);
      var n := DecodeNode(ws, i, nfeats).value;
      IntToWordOfWordToInt(ws[0]);
      IntToWordOfWordToInt(ws[1]);
      assert EncodeNode(n, nfeats) == ws[..w];
      EncodeDecodeNodes(ws[w..], i + 1, nnodes, nfeats);
      assert nodes[1..] == DecodeNodes(ws[w..], i + 1, nnodes, nfeats).value;
      assert nodes[0] == n;
      assert EncodeNodes(nodes, nfeats) == ws[..w] + ws[w..][..(nnodes - i - 1) * w];
      MulStep(nnodes - i, w);
      PrefixSplit(ws, w, (nnodes - i - 1) * w);
    } else {
      assert ws[..0] == [];
    }
  }

  /** Writing what ReadSubgraph read reproduces, word for word, the part of
      the stream it consumed. */
  lemma EncodeDecode(ws: seq<Word>)
    requires Decode(ws).Success?
    ensures var g := Decode(ws).value;
      Encodable(g) && Encode(g) == ws[..EncodedSize(g.NNodes(), g.nfeats)]
  {
    var g := Decode(ws).value;
    IntToWordOfWordToInt(ws[0]);
    IntToWordOfWordToInt(ws[1]);
    IntToWordOfWordToInt(ws[2]);
    if g.NNodes() > 0 {
      var body := g.NNodes() * NodeWords(g.nfeats);
      assert g.node == DecodeNodes(ws[3..], 0, g.NNodes(), g.nfeats).value;
      EncodeDecodeNodes(ws[3..], 0, g.NNodes(), g.nfeats);
      assert Encode(g) == ws[..3] + ws[3..][..body];
      PrefixSplit(ws, 3, body);
    } else {
      assert ws[..EncodedSize(g.NNodes(), g.nfeats)] == ws[..3];
    }
  }

  /** Any stream that ends before the last word WriteSubgraph wrote is rejected. */
  lemma DecodeRejectsTruncated(g: Subgraph, k: nat)
    requires Encodable(g)
    requires k < |Encode(g)|
    ensures Decode(Encode(g)[..k]).Failure?
  {
    var ws := Encode(g)[..k];
    if k >= 3 {
      WordToIntOfIntToWord(|g.node|);
      WordToIntOfIntToWord(g.nfeats);
      assert ws[0] == IntToWord(|g.node|) && ws[2] == IntToWord(g.nfeats);
    }
  }
}

=== FILE: prototypes.dfy ===
/** Prototype extraction: the collection of the forest roots (nodes whose
    predecessor is NIL) of a trained collection, kept in source order, used to
    build the next level of a hierarchical forest. */
module Prototypes {
  import opened Wrappers
  import opened Words
  import opened Subgraphs

  predicate IsPrototype(n: Node) {
    n.pred == NIL
  }

  /** The number of prototypes among `nodes` (the first loop of CreateGraphFromPrototypes). */
  function CountPrototypes(nodes: seq<Node>): (c: nat)
    ensures c <= |nodes|
  {
    if |nodes| == 0 then 0
    else CountPrototypes(nodes[..|nodes| - 1]) + (if IsPrototype(nodes[|nodes| - 1]) then 1 else 0)
  }

  /** The indices of the prototypes among `nodes`, in increasing order: entry
      `k` is the index of the `k`-th prototype. */
  function PrototypeIndices(nodes: seq<Node>): (ix: seq<nat>)
    ensures |ix| == CountPrototypes(nodes)
    ensures forall k :: 0 <= k < |ix| ==> ix[k] < |nodes| && IsPrototype(nodes[ix[k]])
    ensures forall i :: 0 <= i < |nodes| && IsPrototype(nodes[i]) ==> i in ix
    ensures forall k, l :: 0 <= k < l < |ix| ==> ix[k] < ix[l]
  {
    if |nodes| == 0 then []
    else
      var last := |nodes| - 1;
      PrototypeIndices(nodes[..last]) + (if IsPrototype(nodes[last]) then [last] else [])
  }

  /** Counting a prefix never gives more than counting the whole array. */
  lemma {:induction false} CountPrototypesPrefix(nodes: seq<Node>, i: nat)
    requires i <= |nodes|
    ensures CountPrototypes(nodes[..i]) <= CountPrototypes(nodes)
    ensures i < |nodes| && IsPrototype(nodes[i]) ==> CountPrototypes(nodes[..i]) < CountPrototypes(nodes)
    decreases |nodes| - i
  {
    if i < |nodes| {
      CountPrototypesPrefix(nodes, i + 1);
      assert nodes[..i + 1][..i] == nodes[..i];
    } else {
      assert nodes[..i] == nodes;
    }
  }

  /** The node that lands in the prototype collection for source node `n`: a
      fresh node holding its first `nfeats` features and its true label, label,
      predecessor and position; every other field (root included) keeps the
      value CreateSubgraph gave it. */
  function Extracted(n: Node, nfeats: int32): (p: Node)
    requires nfeats >= 0 && FeatsReadable(n, nfeats)
    ensures p.truelabel == n.truelabel && p.assignedLabel == n.assignedLabel
    ensures p.pred == n.pred && p.position == n.position
    ensures p.feat == Some(FeatPrefix(n, nfeats))
    ensures p.(truelabel := 0, assignedLabel := 0, pred := 0, position := 0, feat := None) == DefaultNode
  {
    DefaultNode.(feat := Some(FeatPrefix(n, nfeats)),
                 truelabel := n.truelabel, assignedLabel := n.assignedLabel,
                 pred := n.pred, position := n.position)
  }

  /** What CreateGraphFromPrototypes needs: a valid collection and, for every
      prototype (each gets a freshly allocated feature array), a non-negative
      feature count and readable features. */
  predicate Extractable(g: Subgraph) {
    && g.Valid()
    && ExtractableNodes(g.node, g.nfeats)
  }

  predicate ExtractableNodes(nodes: seq<Node>, nfeats: int) {
    forall i :: 0 <= i < |nodes| && IsPrototype(nodes[i]) ==> nfeats >= 0 && FeatsReadable(nodes[i], nfeats)
  }

  /** The first loop of CreateGraphFromPrototypes: count the prototypes. */
  method CountPrototypesLoop(nodes: seq<Node>) returns (amount: nat)
    ensures amount == |PrototypeIndices(nodes)|
  {
    amount := 0;
    var i := 0;
    while i < |nodes|
      invariant 0 <= i <= |nodes|
      invariant amount == CountPrototypes(nodes[..i])
    {
      assert nodes[..i + 1][..i] == nodes[..i];
      if IsPrototype(nodes[i]) {
        amount := amount + 1;
      }
      i := i + 1;
    }
    assert nodes[..i] == nodes;
  }

  /** The prototype nodes of `nodes` as they land in the new collection, in
      source order: an order-preserving filter on `pred == NIL` followed by
      Extracted. */
  function PrototypeNodes(nodes: seq<Node>, nfeats: int32): (ps: seq<Node>)
    requires ExtractableNodes(nodes, nfeats)
    ensures |ps| == CountPrototypes(nodes)
  {
    if |nodes| == 0 then []
    else
      var last := |nodes| - 1;
      PrototypeNodes(nodes[..last], nfeats) + (if IsPrototype(nodes[last]) then [Extracted(nodes[last], nfeats)] else [])
  }

  /** Node `k` of the filter is the extracted form of the `k`-th prototype of the source. */
  lemma {:induction false} PrototypeNodesInOrder(nodes: seq<Node>, nfeats: int32)
    requires ExtractableNodes(nodes, nfeats)
    ensures forall k :: 0 <= k < CountPrototypes(nodes) ==>
      PrototypeNodes(nodes, nfeats)[k] == Extracted(nodes[PrototypeIndices(nodes)[k]], nfeats)
  {
    if |nodes| > 0 {
      PrototypeNodesInOrder(nodes[..|nodes| - 1], nfeats);
    }
  }

  /** Extending a prefix by one node appends that node's extracted form exactly when it is a prototype. */
  lemma PrototypeNodesStep(nodes: seq<Node>, nfeats: int32, i: nat)
    requires ExtractableNodes(nodes, nfeats)
    requires i < |nodes|
    ensures PrototypeNodes(nodes[..i + 1], nfeats)
         == PrototypeNodes(nodes[..i], nfeats) + (if IsPrototype(nodes[i]) then [Extracted(nodes[i], nfeats)] else [])
  {
    assert nodes[..i + 1][..i] == nodes[..i];
  }

  /** The fields the filling loop writes into `slot` for a prototype whose
      extracted form is `p`: the feature array, true label, label, predecessor
      and position; every other field of `slot` stays as it was. */
  function Fill(slot: Node, p: Node): (r: Node)
    ensures r.feat == p.feat && r.truelabel == p.truelabel && r.assignedLabel == p.assignedLabel
    ensures r.pred == p.pred && r.position == p.position
    ensures r.(feat := slot.feat, truelabel := slot.truelabel, assignedLabel := slot.assignedLabel,
               pred := slot.pred, position := slot.position) == slot
  {
    slot.(feat := p.feat, truelabel := p.truelabel, assignedLabel := p.assignedLabel,
          pred := p.pred, position := p.position)
  }

  /** The second loop of CreateGraphFromPrototypes: write the fields of the
      `k`-th prototype into slot `k` of `slots`. On creation defaults this is
      exactly the filter of extracted prototypes. */
  method FillPrototypes(graph: Subgraph, slots: seq<Node>) returns (nodes: seq<Node>)
    requires Extractable(graph)
    requires |slots| == CountPrototypes(graph.node)
    ensures |nodes| == |slots|
    ensures forall k :: 0 <= k < |slots| ==>
      nodes[k] == Fill(slots[k], PrototypeNodes(graph.node, graph.nfeats)[k])
    ensures (forall k :: 0 <= k < |slots| ==> slots[k] == DefaultNode) ==>
      nodes == PrototypeNodes(graph.node, graph.nfeats)
  {
    nodes := slots;
    var nodeIndex := 0;
    var i := 0;
    while i < |graph.node|
      invariant 0 <= i <= |graph.node|
      invariant |nodes| == |slots|
      invariant nodeIndex == CountPrototypes(graph.node[..i]) <= |slots|
      invariant forall k :: 0 <= k < nodeIndex ==>
        nodes[k] == Fill(slots[k], PrototypeNodes(graph.node[..i], graph.nfeats)[k])
      invariant forall k :: nodeIndex <= k < |slots| ==> nodes[k] == slots[k]
    {
      PrototypeNodesStep(graph.node, graph.nfeats, i);
      CountPrototypesPrefix(graph.node, i);
      if IsPrototype(graph.node[i]) {
        var n := graph.node[i];
        var slot := nodes[nodeIndex];
        nodes := nodes[nodeIndex := slot.(feat := Some(FeatPrefix(n, graph.nfeats)),
                                           truelabel := n.truelabel, assignedLabel := n.assignedLabel,
                                           pred := n.pred, position := n.position)];
        nodeIndex := nodeIndex + 1;
      }
      i := i + 1;
    }
    assert graph.node[..i] == graph.node;
    if forall k :: 0 <= k < |slots| ==> slots[k] == DefaultNode {
      forall k | 0 <= k < |slots|
        ensures nodes[k] == PrototypeNodes(graph.node, graph.nfeats)[k]
      {
        PrototypeNodesInOrder(graph.node, graph.nfeats);
      }
    }
  }

  /** CreateGraphFromPrototypes: count the prototypes, create a collection of
      that size with one label and the source's feature count, then fill its
      nodes from the prototypes in source order. */
  method CreateGraphFromPrototypes(graph: Subgraph) returns (newGraph: Subgraph)
    requires Extractable(graph)
    ensures newGraph.Valid()
    ensures newGraph.NNodes() == CountPrototypes(graph.node)
    ensures newGraph.nlabels == 1 && newGraph.nfeats == graph.nfeats
    ensures newGraph == CreateSubgraph(newGraph.NNodes()).(node := newGraph.node, nlabels := 1, nfeats := graph.nfeats)
    ensures forall k :: 0 <= k < newGraph.NNodes() ==>
      newGraph.node[k] == Extracted(graph.node[PrototypeIndices(graph.node)[k]], graph.nfeats)
    ensures forall k :: 0 <= k < newGraph.NNodes() ==> IsPrototype(newGraph.node[k])
  {
    var amount := CountPrototypesLoop(graph.node);
    newGraph := CreateSubgraph(amount);
    newGraph := newGraph.(nlabels := 1, nfeats := graph.nfeats);
    var nodes := FillPrototypes(graph, newGraph.node);
    PrototypeNodesInOrder(graph.node, graph.nfeats);
    newGraph := newGraph.(node := nodes);
  }

  /** Every node of an extracted collection is itself a prototype, so extracting
      again keeps every node. */
  lemma {:induction false} AllPrototypesCount(nodes: seq<Node>)
    requires forall k :: 0 <= k < |nodes| ==> IsPrototype(nodes[k])
    ensures CountPrototypes(nodes) == |nodes|
    ensures PrototypeIndices(nodes) == seq(|nodes|, k => k)
  {
    if |nodes| > 0 {
      var last := |nodes| - 1;
      AllPrototypesCount(nodes[..last]);
      assert seq(|nodes|, k => k) == seq(last, k => k) + [last];
    }
  }
}

=== FILE: subgraph.dfy ===
/** The node collection of the Optimum-Path Forest classifier (`Subgraph`) and
    its node records (`SNode`), with the operations that create, copy and
    reorder them. Every value here is immutable, so each node owns its feature
    vector and adjacency set by construction: a copy can never alias its source. */
module Subgraphs {
  import opened Wrappers
  import opened Words

  /** The predecessor sentinel: a node whose `pred` is NIL is a forest root, a prototype. */
  const NIL: int32 := -1

  /** One sample of the collection (`assignedLabel` is the C field `label`,
      a reserved word in Dafny). Float fields (`pathval`, `dens`, `radius`)
      are opaque words. `feat` is None while the feature array is unallocated
      (a NULL pointer). `adj` is the adjacency set as a list of node indices; a
      NULL set is the empty list. */
  datatype Node = Node(
    pathval: Word,
    dens: Word,
    radius: Word,
    assignedLabel: int32,
    root: int32,
    pred: int32,
    truelabel: int32,
    position: int32,
    feat: Option<seq<Word>>,
    status: int32,
    relevant: int32,
    nplatadj: int32,
    adj: seq<int32>)

  /** The collection. `nnodes` is the length of `node`; `ordered` is the
      auxiliary ordering list of node indices. Float fields (`df`, `mindens`,
      `maxdens`, `K`) are opaque words. */
  datatype Subgraph = Subgraph(
    node: seq<Node>,
    nfeats: int32,
    bestk: int32,
    nlabels: int32,
    df: Word,
    mindens: Word,
    maxdens: Word,
    K: Word,
    ordered: seq<int32>)
  {
    function NNodes(): nat {
      |node|
    }

    /** `nnodes` fits a C int, and the node array and ordering list both hold `nnodes` entries. */
    predicate Valid() {
      |node| <= MAX_INT32 && |ordered| == |node|
    }
  }

  /** A node as `calloc` leaves it: every scalar zero, no feature array, no adjacency set. */
  const DefaultNode: Node :=
    Node(FLOAT_ZERO, FLOAT_ZERO, FLOAT_ZERO, 0, 0, 0, 0, 0, None, 0, 0, 0, [])

  /** The first `nfeats` features of `n` can be read: there are none to read, or
      the array exists and is long enough. */
  predicate FeatsReadable(n: Node, nfeats: int) {
    nfeats <= 0 || (n.feat.Some? && |n.feat.value| >= nfeats)
  }

  /** `n` carries a feature vector of exactly `nfeats` values. */
  predicate HasFeatures(n: Node, nfeats: int) {
    n.feat.Some? && |n.feat.value| == nfeats
  }

  /** Every node of `g` carries exactly `g.nfeats` features: the populated
      state. (With at least one node this forces `nfeats >= 0`.) */
  predicate WellFormed(g: Subgraph) {
    && g.Valid()
    && forall i :: 0 <= i < |g.node| ==> HasFeatures(g.node[i], g.nfeats)
  }

  /** The number of features a loop over the feature indices below `nfeats`
      visits: none for a count that is not positive. */
  function FeatureWords(nfeats: int): nat {
    if nfeats <= 0 then 0 else nfeats
  }

  /** The features a loop over the feature indices below `nfeats` visits, in
      order: none when `nfeats` is not positive. */
  function FeatPrefix(n: Node, nfeats: int): (f: seq<Word>)
    requires FeatsReadable(n, nfeats)
    ensures |f| == FeatureWords(nfeats)
    ensures forall j :: 0 <= j < |f| ==> f[j] == n.feat.value[j]
    ensures HasFeatures(n, nfeats) ==> f == n.feat.value
  {
    if nfeats <= 0 then [] else n.feat.value[..nfeats]
  }

  /** CreateSubgraph: `nnodes` nodes without features, all scalars zero. */
  function CreateSubgraph(nnodes: nat): (g: Subgraph)
    requires nnodes <= MAX_INT32
    ensures g.Valid() && g.NNodes() == nnodes
    ensures g.bestk == 0
    ensures forall i :: 0 <= i < nnodes ==>
      && g.node[i].feat.None?
      && g.node[i].relevant == 0
      && g.node[i].dens == FLOAT_ZERO
    ensures forall i :: 0 <= i < nnodes ==> g.node[i] == DefaultNode
    ensures forall i :: 0 <= i < nnodes ==> g.ordered[i] == 0
    ensures g.nfeats == 0 && g.nlabels == 0
    ensures g.df == FLOAT_ZERO && g.mindens == FLOAT_ZERO && g.maxdens == FLOAT_ZERO && g.K == FLOAT_ZERO
  {
    Subgraph(seq(nnodes, _ => DefaultNode), 0, 0, 0,
             FLOAT_ZERO, FLOAT_ZERO, FLOAT_ZERO, FLOAT_ZERO,
             seq(nnodes, _ => 0))
  }

  /** CopySNode: a fresh node holding every scalar of `src`, a fresh feature
      array with its first `nfeats` features, and a clone of its adjacency set. */
  function CopySNode(src: Node, nfeats: int32): (dest: Node)
    requires nfeats >= 0 && FeatsReadable(src, nfeats)
    ensures dest == src.(feat := Some(FeatPrefix(src, nfeats)))
    ensures HasFeatures(src, nfeats) ==> dest == src
  {
    Node(src.pathval, src.dens, src.radius,
         src.assignedLabel, src.root, src.pred, src.truelabel, src.position,
         Some(FeatPrefix(src, nfeats)),
         src.status, src.relevant, src.nplatadj,
         src.adj)
  }

  /** What CopySubgraph needs of its argument: a valid collection whose first
      `nfeats` features can be read from every node. A feature array is
      allocated once per node, so a negative `nfeats` is excluded only when
      there is a node to copy. */
  predicate Copyable(g: Subgraph) {
    && g.Valid()
    && forall i :: 0 <= i < |g.node| ==> g.nfeats >= 0 && FeatsReadable(g.node[i], g.nfeats)
  }

  /** CopySubgraph: NULL gives NULL; otherwise a collection of the same size
      with every collection scalar copied, each node copied by CopySNode and
      the ordering list copied element by element. */
  method CopySubgraph(g: Option<Subgraph>) returns (clone: Option<Subgraph>)
    requires g.Some? ==> Copyable(g.value)
    ensures g.None? <==> clone.None?
    ensures g.Some? ==>
      var s, c := g.value, clone.value;
      && c.Valid()
      && c.NNodes() == s.NNodes()
      && c.bestk == s.bestk && c.df == s.df
      && c.nlabels == s.nlabels && c.nfeats == s.nfeats
      && c.mindens == s.mindens && c.maxdens == s.maxdens && c.K == s.K
      && c.ordered == s.ordered
      && forall i :: 0 <= i < |s.node| ==>
           c.node[i] == s.node[i].(feat := Some(FeatPrefix(s.node[i], s.nfeats)))
    ensures g.Some? && WellFormed(g.value) ==> clone == g
  {
    if g.None? {
      return None;
    }
    var s := g.value;
    var c := CreateSubgraph(|s.node|);
    c := c.(bestk := s.bestk, df := s.df, nlabels := s.nlabels, nfeats := s.nfeats,
            mindens := s.mindens, maxdens := s.maxdens, K := s.K);
    var nodes := c.node;
    var ordered := c.ordered;
    var i := 0;
    while i < |s.node|
      invariant 0 <= i <= |s.node|
      invariant |nodes| == |s.node| && |ordered| == |s.node|
      invariant forall j :: 0 <= j < i ==> nodes[j] == CopySNode(s.node[j], s.nfeats)
      invariant forall j :: 0 <= j < i ==> ordered[j] == s.ordered[j]
    {
      nodes := nodes[i := CopySNode(s.node[i], s.nfeats)];
      ordered := ordered[i := s.ordered[i]];
      i := i + 1;
    }
    c := c.(node := nodes, ordered := ordered);
    if WellFormed(s) {
      assert c.node == s.node;
    }
    return Some(c);
  }

  /** SwapSNode applied to slots `a` and `b` of a node array: the two records
      change places and every other slot is untouched. */
  function SwapSNode(nodes: seq<Node>, a: nat, b: nat): (r: seq<Node>)
    requires a < |nodes| && b < |nodes|
    ensures |r| == |nodes|
    ensures r[a] == nodes[b] && r[b] == nodes[a]
    ensures forall i :: 0 <= i < |nodes| && i != a && i != b ==> r[i] == nodes[i]
  {
    nodes[a := nodes[b]][b := nodes[a]]
  }

  /** Swapping the same two slots twice restores the original array. */
  lemma SwapSNodeInvolution(nodes: seq<Node>, a: nat, b: nat)
    requires a < |nodes| && b < |nodes|
    ensures SwapSNode(SwapSNode(nodes, a, b), a, b) == nodes
  {
    var once := SwapSNode(nodes, a, b);
    var twice := SwapSNode(once, a, b);
    assert forall i :: 0 <= i < |nodes| ==> twice[i] == nodes[i];
  }

  /** A swap only reorders: the array holds the same records, each as often as before. */
  lemma SwapSNodePermutes(nodes: seq<Node>, a: nat, b: nat)
    requires a < |nodes| && b < |nodes|
    ensures multiset(SwapSNode(nodes, a, b)) == multiset(nodes)
  {
    if a != b {
      var once := nodes[a := nodes[b]];
      assert multiset(once) == multiset(nodes) - multiset{nodes[a]} + multiset{nodes[b]};
      assert once[b] == nodes[b];
      assert multiset(once[b := nodes[a]]) == multiset(once) - multiset{nodes[b]} + multiset{nodes[a]};
    }
  }

  /** The collection with slots `a` and `b` swapped is still valid and well formed when it was. */
  lemma SwapSNodePreservesWellFormed(g: Subgraph, a: nat, b: nat)
    requires WellFormed(g) && a < |g.node| && b < |g.node|
    ensures WellFormed(g.(node := SwapSNode(g.node, a, b)))
  {
  }

  /** SwapSNode applied to slot `a` of node array `x` and slot `b` of another
      node array `y`: the record of `y[b]` moves into `x` and the record of
      `x[a]` moves into `y`, each with its feature array and adjacency set;
      every other slot of both arrays is untouched. */
  function SwapSNodes(x: seq<Node>, a: nat, y: seq<Node>, b: nat): (r: (seq<Node>, seq<Node>))
    requires a < |x| && b < |y|
    ensures |r.0| == |x| && |r.1| == |y|
    ensures r.0[a] == y[b] && r.1[b] == x[a]
    ensures forall i :: 0 <= i < |x| && i != a ==> r.0[i] == x[i]
    ensures forall i :: 0 <= i < |y| && i != b ==> r.1[i] == y[i]
  {
    (x[a := y[b]], y[b := x[a]])
  }

  /** Exchanging the same two slots twice restores both arrays. */
  lemma SwapSNodesInvolution(x: seq<Node>, a: nat, y: seq<Node>, b: nat)
    requires a < |x| && b < |y|
    ensures var r := SwapSNodes(x, a, y, b); SwapSNodes(r.0, a, r.1, b) == (x, y)
  {
    var r := SwapSNodes(x, a, y, b);
    var t := SwapSNodes(r.0, a, r.1, b);
    assert t.0 == x;
    assert t.1 == y;
  }

  /** An exchange between two arrays moves records without creating or losing
      any: together the two arrays hold the same multiset of records. */
  lemma SwapSNodesConserves(x: seq<Node>, a: nat, y: seq<Node>, b: nat)
    requires a < |x| && b < |y|
    ensures var r := SwapSNodes(x, a, y, b);
      multiset(r.0) + multiset(r.1) == multiset(x) + multiset(y)
  {
  }

  /** Exchanging a node between two populated collections leaves both
      populated exactly when they have the same feature count: otherwise the
      moved record carries the wrong number of features for its new owner. */
  lemma SwapSNodesWellFormed(g: Subgraph, a: nat, h: Subgraph, b: nat)
    requires WellFormed(g) && WellFormed(h) && a < |g.node| && b < |h.node|
    ensures var r := SwapSNodes(g.node, a, h.node, b);
      WellFormed(g.(node := r.0)) && WellFormed(h.(node := r.1)) <==> g.nfeats == h.nfeats
  {
  }
}

=== FILE: words.dfy ===
/** Fixed-width machine values. The stream is a sequence of 32-bit words: a C
    `int` is written as its two's-complement bits and a C `float` as its raw
    IEEE-754 bits. The model never does float arithmetic, so float-typed fields
    are carried as opaque words. */
module Words {

  /** One 32-bit word of the stream, read as an unsigned number; also the raw
      bits of a float field. */
  newtype Word = w: int | 0 <= w < 0x1_0000_0000

  const MAX_INT32: int := 0x7fff_ffff

  /** A C `int`. */
  type int32 = x: int | -0x8000_0000 <= x <= 0x7fff_ffff

  /** The bits of a float 0.0f, which is what `calloc` leaves in a float field. */
  const FLOAT_ZERO: Word := 0

  /** The two's-complement bits of an `int`: the word written for an integer field. */
  function IntToWord(x: int32): (w: Word)
    ensures x < 0 <==> w >= 0x8000_0000
  {
    if x >= 0 then x as Word else (x + 0x1_0000_0000) as Word
  }

  /** The `int` whose two's-complement bits are `w`: the value read into an integer field. */
  function WordToInt(w: Word): (x: int32)
    ensures x < 0 <==> w >= 0x8000_0000
  {
    if w < 0x8000_0000 then w as int else w as int - 0x1_0000_0000
  }

  /** Reading back a written `int` gives the same `int`. */
  lemma WordToIntOfIntToWord(x: int32)
    ensures WordToInt(IntToWord(x)) == x
  {
  }

  /** Writing a read `int` gives back the same bits. */
  lemma IntToWordOfWordToInt(w: Word)
    ensures IntToWord(WordToInt(w)) == w
  {
  }
}

=== FILE: wrappers.dfy ===
/** Failure-carrying datatypes shared by the model: a possibly-absent value
    (a C pointer that may be NULL) and the outcome of an operation that can
    fail (the C code's calls to Error, which abort the process). */
module Wrappers {

  datatype Option<+T> = None | Some(value: T)

  datatype Result<+T, +E> = Success(value: T) | Failure(error: E)
}
